=== FILE: README.md ===
# cssinjs style cache: a Dafny model

This project models the core of the Vue port of `@ant-design/cssinjs`. The core has two parts.

- **`useGlobalCache`** is the reference-counted client cache hook. Every consumer of a style
  registers a path `[prefix, ...keyPath]` in a shared store. The store keeps a pair
  `(times, cache)` for each path:
  - setting up a consumer ("flush") bumps `times`, and calls `cacheFn` only when no truthy
    value is stored or when a hot-module reload (HMR) forces a rebuild;
  - releasing a consumer ("clearCache") drops `times`, and deletes the slot and calls
    `onCacheRemove` when the count reaches exactly zero;
  - a consumer whose key path is re-assigned releases its old path, and acquires the new one
    only when the `'-'`-joined path string changed;
  - reading a consumer's value looks up the consumer's current path.
- **`createCache`** prepares a new cache. When a document with a head and a body exists, it:
  - tags every marked `<style data-css-hash>` of the body with this runtime's instance id,
    unless the style is already tagged;
  - moves those styles in front of the head's first child;
  - scans the whole document in order and removes every later duplicate hash that this
    instance owns.

  Then it returns an empty cache.

Modules:
- `Options` holds `Option` and `Result`.
- `CacheEntity` is the store as a path-keyed map.
- `GlobalCache` holds the two updaters and traces of store events.
- `ClientCache` is one hook instance: mount, key-path change, unmount and read.
- `CacheSystem` covers many hook instances sharing one store. Its invariant: a path has an
  entry exactly when some consumer reads it, and the entry's count is the number of such
  consumers.
- `StyleContext` holds `createCache` and its adoption and dedup pass.

How the model represents the code:
- Calls to `cacheFn` and `onCacheRemove` become returned effect lists.
- JavaScript truthiness of a cached value is a parameter `truthy`.
- The HMR flag and the random instance id are parameters.

## Model

| member | source | states |
|---|---|---|
| CacheEntity.Update | src/hooks/useGlobalCache.tsx:22 | an update writes the updater's result at its path (a null result deletes) and leaves every other path as it was |
| GlobalCache.FlushUpdate | src/hooks/useGlobalCache.tsx:43-58 | the count goes up by one and the slot is never deleted. A truthy stored value survives a non-HMR flush, with no calls. Otherwise `cacheFn` runs once and its result is stored. With no truthy value the only call is `cacheFn`. When HMR discards a truthy value the calls are exactly `onCacheRemove(old, true)` then `cacheFn` |
| GlobalCache.Flush | src/hooks/useGlobalCache.tsx:44-57 | acquiring a path in the store raises its count by one and stores the reused or freshly built value. No other path changes, and the calls are the updater's |
| GlobalCache.Clear | src/hooks/useGlobalCache.tsx:21-33 | releasing a path in the store deletes it exactly when its count was one, and otherwise leaves count minus one with the same value. No other path changes, and the calls are the updater's |
| GlobalCache.ClearUpdate | src/hooks/useGlobalCache.tsx:21-33 | the slot is deleted, and `onCacheRemove(value, false)` called once, exactly when the count was 1. Otherwise the count drops by one (to -1 for an absent path), the value stays and nothing is called |
| GlobalCache.ClearInvertsFlush | src/hooks/useGlobalCache.tsx:21-58 | a release right after an acquire restores an absent slot, or the count of a slot whose count is not zero. If the value was reused, it restores the slot exactly |
| GlobalCache.FlushThenClearAtZeroDeletes | src/hooks/useGlobalCache.tsx:21-58 | a count-zero slot, reachable after a stray release, is not restored by a release after an acquire. It is deleted, and its value handed to `onCacheRemove` |
| GlobalCache.FlushesShareValue | src/hooks/useGlobalCache.tsx:43-58 | any number of non-HMR flushes of a slot holding a truthy value only add to its count. The value is shared and `cacheFn` is never called |
| GlobalCache.NFlushesBuildOnce | src/hooks/useGlobalCache.tsx:43-58 | when the built value is truthy, N consumers acquiring an absent slot end with count N, share the first consumer's value, and call `cacheFn` once |
| GlobalCache.ReleaseAll | src/hooks/useGlobalCache.tsx:21-33 | releasing a slot as many times as its count deletes it, calling `onCacheRemove` once with its value |
| GlobalCache.AcquireReleaseBalanced | src/hooks/useGlobalCache.tsx:21-58 | when the built value is truthy, N acquires then N releases of an absent slot leave the store unchanged. Across both, the calls are exactly one `cacheFn` and one `onCacheRemove` with the shared value |
| GlobalCache.StrayClearLeaksSlot | src/hooks/useGlobalCache.tsx:23-31 | a release of an absent path is not a no-op. It leaves count -1, so a later acquire and its matching release leave a slot that is never deleted |
| ClientCache.FullPath | src/hooks/useGlobalCache.tsx:16-18 | the full path is the prefix followed by the key path |
| ClientCache.Join | src/hooks/useGlobalCache.tsx:38 | the joined string's length is the parts' characters plus one separator between each pair of neighbours. It opens with the first part, followed by a separator when more parts follow |
| ClientCache.JoinConcat | src/hooks/useGlobalCache.tsx:38 | joining two non-empty runs of parts is joining each and putting one separator between them. With the single-part case this fixes every character of the join |
| ClientCache.Read | src/hooks/useGlobalCache.tsx:70-73 | a read succeeds exactly when the consumer's cache path has an entry, and yields that entry's value. A missing entry is an error (indexing the missing entry with `[1]` throws) |
| ClientCache.Mount | src/hooks/useGlobalCache.tsx:14-66 | the consumer starts on its full path with an empty path string. The slot's count goes up by one and no other path changes. The consumer reads the stored value when it was reused, or what `cacheFn` built. The calls are exactly the flush updater's |
| ClientCache.Unmount | src/hooks/useGlobalCache.tsx:67-69 | the consumer's full path is released and no other path changes. The calls are exactly the clear updater's. The last consumer deletes the slot and hands its value to `onCacheRemove` |
| ClientCache.ChangeKeyPath | src/hooks/useGlobalCache.tsx:35-66 | as written: the consumer moves to the new path and records its joined string, and the old path is always released. When the joined string equals the recorded one, the release is the only change and the only call. When it differs, the new path is then acquired, even if it equals the old one. No other path changes, and the calls are the release's followed by the acquire's |
| ClientCache.ChangeKeyPathFixed | src/hooks/useGlobalCache.tsx:35-66 | corrected: an unchanged path leaves store and calls untouched. A changed path releases the old path, then flushes the new one: the new path holds the flush updater's pair over its previous entry, nothing else changes, and the calls are the release's followed by the flush's |
| ClientCache.AsWrittenAgreesWhenStringChanges | src/hooks/useGlobalCache.tsx:35-66 | when the joined string changes and the path really moves, the code as written and the corrected protocol coincide |
| ClientCache.EqualPathNewStringRebuilds | src/hooks/useGlobalCache.tsx:35-66 | as written, the first re-assignment of an equal key path deletes its sole consumer's slot, calling `onCacheRemove`, and rebuilds it with `cacheFn` at count one |
| ClientCache.UnchangedStringDropsReference | src/hooks/useGlobalCache.tsx:35-66 | as written, re-assigning a key path whose joined string equals the recorded one leaves the sole consumer of a slot reading a deleted entry |
| ClientCache.EqualKeyPathTwiceLosesEntry | src/hooks/useGlobalCache.tsx:35-66 | reachable case: a consumer on `['css','a']` whose key path is re-assigned twice to an equal `['a']` ends with its slot deleted, so its read throws |
| ClientCache.JoinCollisionSkipsAcquire | src/hooks/useGlobalCache.tsx:35-66 | `['css','a-b']` and `['css','a','b']` join to the same string, so moving between them releases without acquiring |
| ClientCache.FixedChangeKeepsEntry | src/hooks/useGlobalCache.tsx:35-73 | under the corrected protocol, a consumer whose slot is live still reads a value after any key-path change |
| ClientCache.ThreeConsumersShareOneValue | src/hooks/useGlobalCache.tsx:43-73 | when the first built value is truthy, three identical consumers share it, built once. Unmounting all three restores the store and calls `onCacheRemove` once |
| CacheSystem.Count | src/hooks/useGlobalCache.tsx:21-58 | the number of consumers reading a path is positive exactly when some consumer reads it |
| CacheSystem.EmptyIsConsistent | src/StyleContext.tsx:44 | a new empty cache with no consumers satisfies the invariant |
| CacheSystem.ConsistentReadsSucceed | src/hooks/useGlobalCache.tsx:70-73 | under the invariant every consumer's read succeeds and no count is below one |
| CacheSystem.CountAbsent | src/hooks/useGlobalCache.tsx:21-58 | under the invariant a path has no entry exactly when no consumer reads it |
| CacheSystem.MountKeepsConsistent | src/hooks/useGlobalCache.tsx:43-66 | setting up a consumer keeps the invariant |
| CacheSystem.MountBuildsOnlyForFirstConsumer | src/hooks/useGlobalCache.tsx:43-58 | a path's first consumer calls `cacheFn` exactly once. A consumer joining a truthy value without HMR calls nothing and reads that value |
| CacheSystem.UnmountKeepsConsistent | src/hooks/useGlobalCache.tsx:67-69 | unmounting a consumer keeps the invariant |
| CacheSystem.UnmountEntry | src/hooks/useGlobalCache.tsx:21-33 | after an unmount a path has an entry exactly when a remaining consumer reads it, and its count is their number |
| CacheSystem.UnmountRemovesOnLastRelease | src/hooks/useGlobalCache.tsx:21-33 | an unmount deletes the slot, and calls `onCacheRemove` once with its value, exactly when it was the last consumer. Otherwise it calls nothing and keeps the value |
| CacheSystem.ChangeKeepsConsistent | src/hooks/useGlobalCache.tsx:35-66 | the corrected key-path change keeps the invariant and moves the consumer to its new full path |
| CacheSystem.ChangeEntry | src/hooks/useGlobalCache.tsx:35-66 | after the corrected key-path change a path has an entry exactly when some consumer reads it, and its count is their number |
| StyleContext.Tag | src/StyleContext.tsx:21-22 | an existing truthy instance marker is kept. Otherwise the current instance id is written |
| StyleContext.Moved | src/StyleContext.tsx:17-26 | every moved node is a marked body style with `Tag` applied, and together with the unmarked nodes they account for the whole body |
| StyleContext.MovedKeepsMarks | src/StyleContext.tsx:17-26 | the moved styles carry exactly the content hashes of the body |
| StyleContext.AdoptBodyStyles | src/StyleContext.tsx:16-26 | inserting each marked body style, tagged, before the head's original first child leaves those styles in body order in front of the old head. The body keeps its other nodes in order |
| StyleContext.Scan | src/StyleContext.tsx:29-41 | the hashes recorded after the scan are the starting ones plus every marked style's hash. The scan keeps at most as many nodes as it scans; which ones it keeps is `ScanKeepsExactlyMask` |
| StyleContext.ScanKeepsExactlyMask | src/StyleContext.tsx:29-41 | the scan keeps, in order, exactly the nodes that are not marked styles owned by this instance whose hash was seen earlier |
| StyleContext.ScanIdempotent | src/StyleContext.tsx:29-41 | scanning the scan's output again from the same hashes changes nothing |
| StyleContext.ScanKeepsUnmarked | src/StyleContext.tsx:29-41 | the scan never removes a node that is not a marked style |
| StyleContext.AdoptAndDedup | src/StyleContext.tsx:16-41 | after the pass, the head is the moved styles then the old head, minus owned duplicates. The body is its unmarked nodes |
| StyleContext.AdoptAndDedupKeepsUnmarked | src/StyleContext.tsx:16-41 | nodes that are not marked styles are never moved or removed |
| StyleContext.AdoptAndDedupIdempotent | src/StyleContext.tsx:16-41 | running the pass on its own result changes nothing |
| StyleContext.CreateCache | src/StyleContext.tsx:15-45 | the result is always a new empty cache. Without a document, head or body the document is untouched. With all three, the head becomes the tagged body styles followed by the old head, minus owned duplicates, and the body keeps only its other nodes |
| StyleContext.CreateCacheIdempotent | src/StyleContext.tsx:15-45 | creating a second cache with the same instance id leaves the document as the first left it |

## Left out

- Vue reactivity is flattened into explicit lifecycle events: `computed`, `ref`, `shallowRef`, `watch`, `onBeforeUnmount`, and the memoisation of the returned computed value. The watchers' order within one tick is modelled as release, record path, then flush.
- `useHMR` (src/hooks/useHMR.ts) is a boolean captured once per consumer at setup. Production builds are modelled by passing `false`.
- `useStyleInject` and `checkIsSetup` are left out. The store is passed in explicitly.
- The instance id `Math.random().toString(12).slice(2)` is a parameter.
- The DOM is a head and a body, each a flat sequence of nodes in document order. Styles nested outside head and body are not modelled.
- src/Cache is not part of this model. The store is a plain map from paths to pairs. Its internal key encoding is not modelled.
- Key segments are strings. Numeric key segments and how `join('-')` prints them are not modelled.
- `styleHash` is modelled as a set of hashes. The case where a hash equals an `Object.prototype` property name is not modelled.
- `onCacheRemove` is optional in the code. The model lists its calls as effects whether or not a callback is given.
- GlobalCache.ClearUpdate: the behaviour follows the code, not the documented intent. Clearing an absent path writes the pair `[-1, undefined]` instead of being a no-op, and counts can go below zero; `StrayClearLeaksSlot` shows the consequence.
- Hashing, serialisation, keyframes, `useStyleRegister`, `useCacheToken` and src/index.ts are not part of this model.

## Findings

| source | as written | input that shows it | evidently intended | confidence | as-written member | corrected member |
|---|---|---|---|---|---|---|
| src/hooks/useGlobalCache.tsx:35-39, 60-66 | the path watcher always releases the old full path. The string watcher acquires the new one only when the `'-'`-joined string differs from the recorded one, and that string starts as `''` | a consumer set up on `['css','a']` whose key path is re-assigned to `['a']` twice: the second change releases the only reference and acquires nothing, so the next read of `cache.get(...)![1]` throws. Moving from `['css','a-b']` to `['css','a','b']` fails the same way | a key-path change releases and acquires together, or does neither | medium, not executed | ClientCache.ChangeKeyPath (shown by ClientCache.EqualKeyPathTwiceLosesEntry, ClientCache.JoinCollisionSkipsAcquire, ClientCache.UnchangedStringDropsReference) | ClientCache.ChangeKeyPathFixed (proved by ClientCache.FixedChangeKeepsEntry and CacheSystem.ChangeKeepsConsistent) |

=== FILE: cache_entity.dfy ===
/** The path-keyed store that every cache hook writes into. Only its boundary is modelled:
    `get` is a lookup and `update` either deletes the path (the updater returned `null`) or
    overwrites it. Paths are compared structurally. */
module CacheEntity {
  import opened Options

  /** A cache path: `[prefix, ...keyPath]`, every segment in its string form. */
  type Path = seq<string>

  type Store<V> = map<Path, V>

  function Get<V>(s: Store<V>, p: Path): (r: Option<V>)
    ensures r.Some? <==> p in s
    ensures r.Some? ==> r.value == s[p]
  {
    if p in s then Some(s[p]) else None
  }

  /** Applies an updater's answer: `None` removes the path, `Some(v)` stores `v` there. */
  function Update<V>(s: Store<V>, p: Path, next: Option<V>): (r: Store<V>)
    ensures Get(r, p) == next
    ensures forall q :: q != p ==> Get(r, q) == Get(s, q)
  {
    match next
    case None => s - {p}
    case Some(v) => s[p := v]
  }

  /** A freshly constructed, empty store. */
  function Empty<V>(): (r: Store<V>)
    ensures forall p :: Get(r, p).None?
  {
    map[]
  }
}

=== FILE: cache_system.dfy ===
/** Many hook consumers sharing one store. The invariant the reference counting is meant to
    keep: a path has an entry exactly when some live consumer reads it, and the entry's count
    is the number of such consumers. Set-up, unmount and the corrected key-path change keep it. */
module CacheSystem {
  import opened Options
  import opened CacheEntity
  import opened GlobalCache
  import opened ClientCache

  datatype System<T> = System(store: Store<Entry<T>>, consumers: seq<Consumer>)

  /** A system after one lifecycle event, with the calls made. */
  datatype Transition<T> = Transition(sys: System<T>, effects: seq<Effect<T>>)

  /** The number of live consumers reading `p`. */
  function Count(cs: seq<Consumer>, p: Path): (r: nat)
    ensures r <= |cs|
    ensures r > 0 <==> exists i :: 0 <= i < |cs| && cs[i].cachePath == p
    decreases |cs|
  {
    if |cs| == 0 then 0
    else
      var init := cs[..|cs| - 1];
      assert forall i :: 0 <= i < |init| ==> init[i] == cs[i];
      (if cs[|cs| - 1].cachePath == p then 1 else 0) + Count(init, p)
  }

  ghost predicate Consistent<T>(sys: System<T>) {
    && (forall i :: 0 <= i < |sys.consumers| ==>
          sys.consumers[i].cachePath == FullPathOf(sys.consumers[i])
          && sys.consumers[i].cachePath in sys.store)
    && (forall p :: p in sys.store ==>
          sys.store[p].times == Count(sys.consumers, p) && Count(sys.consumers, p) >= 1)
  }

  function MountOne<T>(sys: System<T>, prefix: string, keyPath: seq<string>, hmr: bool,
                       built: T, truthy: T -> bool): Transition<T> {
    var m := Mount(sys.store, prefix, keyPath, hmr, built, truthy);
    Transition(System(m.store, sys.consumers + [m.consumer]), m.effects)
  }

  function UnmountOne<T>(sys: System<T>, i: nat): Transition<T>
    requires i < |sys.consumers|
  {
    var u := Unmount(sys.store, sys.consumers[i]);
    Transition(System(u.store, sys.consumers[..i] + sys.consumers[i + 1..]), u.effects)
  }

  function ChangeOne<T>(sys: System<T>, i: nat, keyPath: seq<string>, built: T,
                        truthy: T -> bool): Transition<T>
    requires i < |sys.consumers|
  {
    var h := ChangeKeyPathFixed(sys.store, sys.consumers[i], keyPath, built, truthy);
    Transition(System(h.store, sys.consumers[i := h.consumer]), h.effects)
  }

  lemma {:induction false} CountConcat(a: seq<Consumer>, b: seq<Consumer>, p: Path)
    ensures Count(a + b, p) == Count(a, p) + Count(b, p)
    decreases |b|
  {
    if |b| == 0 {
      assert a + b == a;
    } else {
      assert (a + b)[..|a + b| - 1] == a + b[..|b| - 1];
      CountConcat(a, b[..|b| - 1], p);
    }
  }

  lemma CountSplit(cs: seq<Consumer>, i: nat, c: Consumer, p: Path)
    requires i < |cs|
    ensures Count(cs[..i] + cs[i + 1..], p)
            == Count(cs, p) - (if cs[i].cachePath == p then 1 else 0)
    ensures Count(cs[i := c], p)
            == Count(cs, p) - (if cs[i].cachePath == p then 1 else 0)
                            + (if c.cachePath == p then 1 else 0)
  {
    assert cs == cs[..i] + [cs[i]] + cs[i + 1..];
    assert cs[i := c] == cs[..i] + [c] + cs[i + 1..];
    CountConcat(cs[..i] + [cs[i]], cs[i + 1..], p);
    CountConcat(cs[..i], [cs[i]], p);
    CountConcat(cs[..i] + [c], cs[i + 1..], p);
    CountConcat(cs[..i], [c], p);
    CountConcat(cs[..i], cs[i + 1..], p);
    assert [cs[i]][..0] == [];
    assert [c][..0] == [];
  }

  lemma EmptyIsConsistent<T>(sys: System<T>)
    requires sys.store == Empty() && sys.consumers == []
    ensures Consistent(sys)
  {
  }

  /** In a consistent system every consumer reads a value and no count is below one. */
  lemma ConsistentReadsSucceed<T>(sys: System<T>, i: nat)
    requires Consistent(sys) && i < |sys.consumers|
    ensures Read(sys.store, sys.consumers[i]).Ok?
    ensures sys.store[sys.consumers[i].cachePath].times >= 1
  {
  }

  /** Setting up a consumer keeps the system consistent. */
  lemma MountKeepsConsistent<T>(sys: System<T>, prefix: string, keyPath: seq<string>, hmr: bool,
                                built: T, truthy: T -> bool)
    requires Consistent(sys)
    ensures Consistent(MountOne(sys, prefix, keyPath, hmr, built, truthy).sys)
  {
    var p := FullPath(prefix, keyPath);
    var m := Mount(sys.store, prefix, keyPath, hmr, built, truthy);
    var cs := sys.consumers;
    var cs' := cs + [m.consumer];
    assert cs'[..|cs'| - 1] == cs;
    CountAbsent(sys, p);
    forall q | q in m.store
      ensures m.store[q].times == Count(cs', q) && Count(cs', q) >= 1
    {
      assert Count(cs', q) == Count(cs, q) + (if q == p then 1 else 0);
      if q != p {
        assert Get(m.store, q) == Get(sys.store, q);
      }
    }
    forall k | 0 <= k < |cs'|
      ensures cs'[k].cachePath == FullPathOf(cs'[k]) && cs'[k].cachePath in m.store
    {
      if k < |cs| {
        assert cs'[k] == cs[k];
        if cs[k].cachePath != p {
          assert Get(m.store, cs[k].cachePath) == Get(sys.store, cs[k].cachePath);
        }
      }
    }
  }

  /** In a consistent system a path has an entry exactly when some consumer reads it. */
  lemma CountAbsent<T>(sys: System<T>, p: Path)
    requires Consistent(sys)
    ensures Count(sys.consumers, p) == 0 <==> p !in sys.store
  {
    if Count(sys.consumers, p) > 0 {
      var j :| 0 <= j < |sys.consumers| && sys.consumers[j].cachePath == p;
    }
  }

  /** A consumer set up as a path's first consumer calls `cacheFn` exactly once; one joining
      consumers that share a usable value without HMR calls nothing and reads their value. */
  lemma MountBuildsOnlyForFirstConsumer<T>(sys: System<T>, prefix: string, keyPath: seq<string>,
                                           hmr: bool, built: T, truthy: T -> bool)
    requires Consistent(sys)
    ensures var p := FullPath(prefix, keyPath);
            var t := MountOne(sys, prefix, keyPath, hmr, built, truthy);
            Count(sys.consumers, p) == 0 ==> t.effects == [CacheFn(p)]
    ensures var p := FullPath(prefix, keyPath);
            var t := MountOne(sys, prefix, keyPath, hmr, built, truthy);
            Count(sys.consumers, p) > 0 && Usable(sys.store[p].cache, truthy) && !hmr
            ==> t.effects == [] && t.sys.store[p].cache == sys.store[p].cache
  {
    CountAbsent(sys, FullPath(prefix, keyPath));
  }

  /** Unmounting a consumer keeps the system consistent. */
  lemma UnmountKeepsConsistent<T>(sys: System<T>, i: nat)
    requires Consistent(sys) && i < |sys.consumers|
    ensures Consistent(UnmountOne(sys, i).sys)
  {
    var cs := sys.consumers;
    var t := UnmountOne(sys, i);
    var cs' := t.sys.consumers;
    forall q | q in t.sys.store
      ensures t.sys.store[q].times == Count(cs', q) && Count(cs', q) >= 1
    {
      UnmountEntry(sys, i, q);
    }
    forall k | 0 <= k < |cs'|
      ensures cs'[k].cachePath == FullPathOf(cs'[k]) && cs'[k].cachePath in t.sys.store
    {
      UnmountEntry(sys, i, cs'[k].cachePath);
      assert cs'[k] == cs[if k < i then k else k + 1];
      assert Count(cs', cs'[k].cachePath) >= 1;
    }
  }

  /** The count of one path after an unmount. */
  lemma UnmountEntry<T>(sys: System<T>, i: nat, q: Path)
    requires Consistent(sys) && i < |sys.consumers|
    ensures var t := UnmountOne(sys, i);
            (q in t.sys.store <==> Count(t.sys.consumers, q) >= 1)
            && (q in t.sys.store ==> t.sys.store[q].times == Count(t.sys.consumers, q))
  {
    var cs := sys.consumers;
    var p := cs[i].cachePath;
    var u := Unmount(sys.store, cs[i]);
    var cs' := cs[..i] + cs[i + 1..];
    assert UnmountOne(sys, i).sys == System(u.store, cs');
    CountSplit(cs, i, cs[i], q);
    CountAbsent(sys, q);
    if q != p {
      assert Get(u.store, q) == Get(sys.store, q);
    } else {
      assert Get(u.store, p) == ClearUpdate(p, Get(sys.store, p)).next;
    }
  }

  /** Unmounting deletes the consumer's slot, handing its value to `onCacheRemove` once,
      exactly when it was the slot's last consumer; otherwise nothing is called and the value
      stays. */
  lemma UnmountRemovesOnLastRelease<T>(sys: System<T>, i: nat)
    requires Consistent(sys) && i < |sys.consumers|
    ensures var p := sys.consumers[i].cachePath;
            var t := UnmountOne(sys, i);
            && (Count(sys.consumers, p) == 1 <==> p !in t.sys.store)
            && (Count(sys.consumers, p) == 1 <==>
                  t.effects == [OnCacheRemove(p, sys.store[p].cache, false)])
            && (Count(sys.consumers, p) > 1 ==>
                  t.effects == [] && t.sys.store[p].cache == sys.store[p].cache)
  {
  }

  /** The corrected key-path change keeps the system consistent: the consumer's reference moves
      from its old path to its new one. */
  lemma ChangeKeepsConsistent<T>(sys: System<T>, i: nat, keyPath: seq<string>, built: T,
                                 truthy: T -> bool)
    requires Consistent(sys) && i < |sys.consumers|
    ensures Consistent(ChangeOne(sys, i, keyPath, built, truthy).sys)
    ensures var t := ChangeOne(sys, i, keyPath, built, truthy);
            t.sys.consumers[i].cachePath == FullPath(sys.consumers[i].prefix, keyPath)
  {
    var cs := sys.consumers;
    var t := ChangeOne(sys, i, keyPath, built, truthy);
    var h := ChangeKeyPathFixed(sys.store, cs[i], keyPath, built, truthy);
    var cs' := t.sys.consumers;
    assert cs' == cs[i := h.consumer];
    forall q | q in t.sys.store
      ensures t.sys.store[q].times == Count(cs', q) && Count(cs', q) >= 1
    {
      ChangeEntry(sys, i, keyPath, built, truthy, q);
    }
    forall k | 0 <= k < |cs'|
      ensures cs'[k].cachePath == FullPathOf(cs'[k]) && cs'[k].cachePath in t.sys.store
    {
      ChangeEntry(sys, i, keyPath, built, truthy, cs'[k].cachePath);
      assert Count(cs', cs'[k].cachePath) >= 1;
      if k != i {
        assert cs'[k] == cs[k];
      }
    }
  }

  /** The count of one path after the corrected key-path change. */
  lemma ChangeEntry<T>(sys: System<T>, i: nat, keyPath: seq<string>, built: T,
                       truthy: T -> bool, q: Path)
    requires Consistent(sys) && i < |sys.consumers|
    ensures var t := ChangeOne(sys, i, keyPath, built, truthy);
            (q in t.sys.store <==> Count(t.sys.consumers, q) >= 1)
            && (q in t.sys.store ==> t.sys.store[q].times == Count(t.sys.consumers, q))
  {
    var cs := sys.consumers;
    var c := cs[i];
    var oldPath := c.cachePath;
    var newPath := FullPath(c.prefix, keyPath);
    var h := ChangeKeyPathFixed(sys.store, c, keyPath, built, truthy);
    var cs' := cs[i := h.consumer];
    assert ChangeOne(sys, i, keyPath, built, truthy).sys == System(h.store, cs');
    CountSplit(cs, i, h.consumer, q);
    CountAbsent(sys, q);
    if newPath != oldPath && q == newPath {
      CountAbsent(sys, newPath);
    } else if q != oldPath && q != newPath {
      assert Get(h.store, q) == Get(sys.store, q);
    }
  }
}

=== FILE: client_cache.dfy ===
/** One call of the client cache hook, stripped of reactivity. Setup flushes the initial full
    path `[prefix, ...keyPath]`; a re-assigned key path releases the old full path and, when
    the `'-'`-joined path string changed, acquires the new one; unmount releases the current
    full path; reading looks the current cache path up in the store. */
module ClientCache {
  import opened Options
  import opened CacheEntity
  import opened GlobalCache

  /** The hook's own state: its prefix and key path, the path it reads (`cachePath`), the last
      joined path string (`fullPathStr`, empty until the first key-path change) and the HMR
      flag captured when the hook was set up. */
  datatype Consumer = Consumer(prefix: string, keyPath: seq<string>, cachePath: Path,
                               pathStr: string, hmr: bool)

  /** The store, the hook's state and the calls made, after one lifecycle event. */
  datatype Hooked<T> = Hooked(store: Store<Entry<T>>, consumer: Consumer, effects: seq<Effect<T>>)

  /** Reading `cache.get(cachePath)![1]` throws when the path has no entry. */
  datatype ReadError = MissingEntry

  function FullPath(prefix: string, keyPath: seq<string>): (r: Path)
    ensures |r| == |keyPath| + 1 && r[0] == prefix && r[1..] == keyPath
  {
    [prefix] + keyPath
  }

  function FullPathOf(c: Consumer): Path {
    FullPath(c.prefix, c.keyPath)
  }

  /** The total length of the parts. */
  function Width(parts: seq<string>): nat
    decreases |parts|
  {
    if |parts| == 0 then 0 else |parts[0]| + Width(parts[1..])
  }

  /** The parts concatenated with `sep` between neighbours, as JavaScript's array join does. */
  function Join(parts: seq<string>, sep: string): (r: string)
    ensures |parts| == 0 ==> r == ""
    // the parts' characters plus one separator between each pair of neighbours
    ensures |parts| >= 1 ==> |r| == Width(parts) + (|parts| - 1) * |sep|
    // the result opens with the first part, followed by a separator when more parts follow
    ensures |parts| >= 1 ==> |parts[0]| <= |r| && r[..|parts[0]|] == parts[0]
    ensures |parts| >= 2 ==> |parts[0]| + |sep| <= |r| && r[|parts[0]|..|parts[0]| + |sep|] == sep
    decreases |parts|
  {
    if |parts| == 0 then ""
    else if |parts| == 1 then parts[0]
    else parts[0] + sep + Join(parts[1..], sep)
  }

  /** Joining two non-empty runs of parts is joining each and putting one separator between them. */
  lemma {:induction false} JoinConcat(a: seq<string>, b: seq<string>, sep: string)
    requires |a| >= 1 && |b| >= 1
    ensures Join(a + b, sep) == Join(a, sep) + sep + Join(b, sep)
    decreases |a|
  {
    if |a| > 1 {
      assert (a + b)[1..] == a[1..] + b;
      JoinConcat(a[1..], b, sep);
    } else {
      assert (a + b)[1..] == b;
    }
  }

  /** The computed value the hook returns. */
  function Read<T>(s: Store<Entry<T>>, c: Consumer): (r: Result<Option<T>, ReadError>)
    ensures r.Ok? <==> c.cachePath in s
    ensures r.Ok? ==> r.value == s[c.cachePath].cache
  {
    match Get(s, c.cachePath)
    case None => Err(MissingEntry)
    case Some(e) => Ok(e.cache)
  }

  /** Setup: `cachePath` starts as the full path, `fullPathStr` as `''`, and the immediate
      watcher flushes the full path once. */
  function Mount<T>(s: Store<Entry<T>>, prefix: string, keyPath: seq<string>, hmr: bool,
                    built: T, truthy: T -> bool): (r: Hooked<T>)
    ensures r.consumer == Consumer(prefix, keyPath, FullPath(prefix, keyPath), "", hmr)
    ensures var p := FullPath(prefix, keyPath);
            p in r.store && r.store[p].times == Times(Get(s, p)) + 1
    ensures forall q :: q != FullPath(prefix, keyPath) ==> Get(r.store, q) == Get(s, q)
    // the consumer sees the stored value, or what `cacheFn` just built
    ensures var prev := Get(s, FullPath(prefix, keyPath));
            Read(r.store, r.consumer)
            == Ok(if Reused(prev, hmr, truthy) then Cached(prev) else Some(built))
    ensures var p := FullPath(prefix, keyPath);
            r.effects == FlushUpdate(p, Get(s, p), hmr, built, truthy).effects
  {
    var p := FullPath(prefix, keyPath);
    var f := Flush(s, p, hmr, built, truthy);
    Hooked(f.store, Consumer(prefix, keyPath, p, "", hmr), f.effects)
  }

  /** Unmount releases the consumer's current full path. */
  function Unmount<T>(s: Store<Entry<T>>, c: Consumer): (r: Outcome<T>)
    ensures r.effects == ClearUpdate(FullPathOf(c), Get(s, FullPathOf(c))).effects
    ensures Get(r.store, FullPathOf(c)) == ClearUpdate(FullPathOf(c), Get(s, FullPathOf(c))).next
    ensures forall q :: q != FullPathOf(c) ==> Get(r.store, q) == Get(s, q)
    // the last consumer of a slot deletes it and hands its value to `onCacheRemove`
    ensures var prev := Get(s, FullPathOf(c));
            Times(prev) == 1 ==> FullPathOf(c) !in r.store
                                 && r.effects == [OnCacheRemove(FullPathOf(c), Cached(prev), false)]
  {
    Clear(s, FullPathOf(c))
  }

  /** The key path is re-assigned, as written: the path watcher always releases the previous
      full path and records the new one; the string watcher acquires the new full path only
      when its `'-'`-joined form differs from the recorded string. */
  function ChangeKeyPath<T>(s: Store<Entry<T>>, c: Consumer, keyPath: seq<string>, built: T,
                            truthy: T -> bool): (r: Hooked<T>)
    ensures r.consumer == Consumer(c.prefix, keyPath, FullPath(c.prefix, keyPath),
                                   Join(FullPath(c.prefix, keyPath), "-"), c.hmr)
    // the old full path is always released, and nothing else changes on that side
    ensures var oldPath := FullPathOf(c);
            var newPath := FullPath(c.prefix, keyPath);
            newPath != oldPath || Join(newPath, "-") == c.pathStr
            ==> Get(r.store, oldPath) == ClearUpdate(oldPath, Get(s, oldPath)).next
    // an unchanged string: the release is all that happens
    ensures var oldPath := FullPathOf(c);
            Join(FullPath(c.prefix, keyPath), "-") == c.pathStr
            ==> && (forall q :: q != oldPath ==> Get(r.store, q) == Get(s, q))
                && r.effects == ClearUpdate(oldPath, Get(s, oldPath)).effects
    // a changed string: the new full path is acquired after the release, even when it equals
    // the old one
    ensures var oldPath := FullPathOf(c);
            var newPath := FullPath(c.prefix, keyPath);
            var released := ClearUpdate(oldPath, Get(s, oldPath));
            var before := if newPath == oldPath then released.next else Get(s, newPath);
            Join(newPath, "-") != c.pathStr
            ==> && Get(r.store, newPath) == FlushUpdate(newPath, before, c.hmr, built, truthy).next
                && (forall q :: q != oldPath && q != newPath ==> Get(r.store, q) == Get(s, q))
                && r.effects
                   == released.effects + FlushUpdate(newPath, before, c.hmr, built, truthy).effects
  {
    var cleared := Clear(s, FullPathOf(c));
    var newPath := FullPath(c.prefix, keyPath);
    var str := Join(newPath, "-");
    var next := Consumer(c.prefix, keyPath, newPath, str, c.hmr);
    if str != c.pathStr then
      var flushed := Flush(cleared.store, newPath, c.hmr, built, truthy);
      Hooked(flushed.store, next, cleared.effects + flushed.effects)
    else
      Hooked(cleared.store, next, cleared.effects)
  }

  /** The key path is re-assigned, corrected: the consumer's reference moves from the old full
      path to the new one exactly when the two paths differ as sequences. */
  function ChangeKeyPathFixed<T>(s: Store<Entry<T>>, c: Consumer, keyPath: seq<string>,
                                 built: T, truthy: T -> bool): (r: Hooked<T>)
    ensures r.consumer == Consumer(c.prefix, keyPath, FullPath(c.prefix, keyPath),
                                   Join(FullPath(c.prefix, keyPath), "-"), c.hmr)
    ensures FullPath(c.prefix, keyPath) == FullPathOf(c) ==> r.store == s && r.effects == []
    ensures var oldPath := FullPathOf(c);
            var newPath := FullPath(c.prefix, keyPath);
            newPath != oldPath ==>
              && Get(r.store, oldPath) == ClearUpdate(oldPath, Get(s, oldPath)).next
              && newPath in r.store
              && r.store[newPath].times == Times(Get(s, newPath)) + 1
              && Get(r.store, newPath) == FlushUpdate(newPath, Get(s, newPath), c.hmr, built, truthy).next
              && (forall q :: q != oldPath && q != newPath ==> Get(r.store, q) == Get(s, q))
              && r.effects == ClearUpdate(oldPath, Get(s, oldPath)).effects
                              + FlushUpdate(newPath, Get(s, newPath), c.hmr, built, truthy).effects
  {
    var newPath := FullPath(c.prefix, keyPath);
    var next := Consumer(c.prefix, keyPath, newPath, Join(newPath, "-"), c.hmr);
    if newPath == FullPathOf(c) then
      Hooked(s, next, [])
    else
      var cleared := Clear(s, FullPathOf(c));
      var flushed := Flush(cleared.store, newPath, c.hmr, built, truthy);
      Hooked(flushed.store, next, cleared.effects + flushed.effects)
  }

  /** Whenever the joined string changes and the path really moves, the code as written and the
      corrected protocol do the same thing. */
  lemma AsWrittenAgreesWhenStringChanges<T>(s: Store<Entry<T>>, c: Consumer, keyPath: seq<string>,
                                            built: T, truthy: T -> bool)
    requires Join(FullPath(c.prefix, keyPath), "-") != c.pathStr
    requires FullPath(c.prefix, keyPath) != FullPathOf(c)
    ensures ChangeKeyPath(s, c, keyPath, built, truthy)
            == ChangeKeyPathFixed(s, c, keyPath, built, truthy)
  {
  }

  /** As written, the first re-assignment of an equal key path (the recorded string is still
      stale) releases and re-acquires the same slot: its sole consumer deletes it, handing the
      value to `onCacheRemove`, and then rebuilds it with `cacheFn`. */
  lemma EqualPathNewStringRebuilds<T>(s: Store<Entry<T>>, c: Consumer, keyPath: seq<string>,
                                      built: T, truthy: T -> bool)
    requires FullPath(c.prefix, keyPath) == FullPathOf(c)
    requires Join(FullPathOf(c), "-") != c.pathStr
    requires FullPathOf(c) in s && s[FullPathOf(c)].times == 1
    ensures var p := FullPathOf(c);
            var r := ChangeKeyPath(s, c, keyPath, built, truthy);
            && r.store == s[p := Entry(1, Some(built))]
            && r.effects == [OnCacheRemove(p, s[p].cache, false), CacheFn(p)]
  {
    var p := FullPathOf(c);
    var cleared := Clear(s, p);
    assert cleared.store == s - {p};
    assert Get(cleared.store, p) == None;
    assert Flush(cleared.store, p, c.hmr, built, truthy).store == (s - {p})[p := Entry(1, Some(built))];
    assert (s - {p})[p := Entry(1, Some(built))] == s[p := Entry(1, Some(built))];
  }

  /** As written, re-assigning a key path whose joined string equals the recorded one releases
      the consumer's reference without taking a new one: the sole consumer of a slot loses its
      entry, and its next read throws. */
  lemma UnchangedStringDropsReference<T>(s: Store<Entry<T>>, c: Consumer, keyPath: seq<string>,
                                         built: T, truthy: T -> bool)
    requires Join(FullPath(c.prefix, keyPath), "-") == c.pathStr
    requires FullPathOf(c) in s && s[FullPathOf(c)].times == 1
    requires FullPath(c.prefix, keyPath) == FullPathOf(c) || FullPath(c.prefix, keyPath) !in s
    ensures Read(ChangeKeyPath(s, c, keyPath, built, truthy).store,
                 ChangeKeyPath(s, c, keyPath, built, truthy).consumer).Err?
  {
  }

  /** A reachable instance: one consumer, set up on `['css', 'a']`, whose key path is
      re-assigned twice to an equal `['a']`. The first re-assignment rebuilds the value (the
      recorded string was still `''`); the second leaves the slot deleted while the consumer
      still reads it. */
  lemma EqualKeyPathTwiceLosesEntry()
    ensures var truthy := (x: int) => x != 0;
            var m := Mount(map[], "css", ["a"], false, 1, truthy);
            var c1 := ChangeKeyPath(m.store, m.consumer, ["a"], 2, truthy);
            var c2 := ChangeKeyPath(c1.store, c1.consumer, ["a"], 3, truthy);
            && Read(c1.store, c1.consumer) == Ok(Some(2))
            && c2.consumer.cachePath == m.consumer.cachePath
            && Read(c2.store, c2.consumer).Err?
            && c2.effects == [OnCacheRemove(["css", "a"], Some(2), false)]
  {
    var truthy := (x: int) => x != 0;
    var p: Path := ["css", "a"];
    assert FullPath("css", ["a"]) == p;
    var empty: Store<Entry<int>> := map[];
    assert Get(empty, p) == None;
    assert FlushUpdate(p, None, false, 1, truthy) == Step(Some(Entry(1, Some(1))), [CacheFn(p)]);
    var m := Mount(empty, "css", ["a"], false, 1, truthy);
    assert m.store == map[p := Entry(1, Some(1))];
    assert Join(p, "-") == "css-a";
    var cleared := Clear(m.store, p);
    assert cleared.store == map[];
    assert cleared.effects == [OnCacheRemove(p, Some(1), false)];
    var c1 := ChangeKeyPath(m.store, m.consumer, ["a"], 2, truthy);
    assert c1.consumer.pathStr == "css-a";
    assert c1.store == map[p := Entry(1, Some(2))];
    var c2 := ChangeKeyPath(c1.store, c1.consumer, ["a"], 3, truthy);
    assert c2.store == Clear(c1.store, p).store;
  }

  /** Two different key paths can join to the same string, so the string watcher cannot tell
      them apart: moving from `['css', 'a-b']` to `['css', 'a', 'b']` releases the old path and
      never acquires the new one. */
  lemma JoinCollisionSkipsAcquire()
    ensures FullPath("css", ["a-b"]) != FullPath("css", ["a", "b"])
    ensures Join(FullPath("css", ["a-b"]), "-") == Join(FullPath("css", ["a", "b"]), "-")
    ensures var truthy := (x: int) => x != 0;
            var c := Consumer("css", ["a-b"], ["css", "a-b"], "css-a-b", false);
            var s := map[["css", "a-b"] := Entry(1, Some(7))];
            var r := ChangeKeyPath(s, c, ["a", "b"], 8, truthy);
            r.store == map[] && Read(r.store, r.consumer).Err?
  {
    assert FullPath("css", ["a-b"])[1] != FullPath("css", ["a", "b"])[1];
    var oldPath: Path := ["css", "a-b"];
    assert FullPath("css", ["a-b"]) == oldPath;
    assert FullPath("css", ["a", "b"]) == ["css", "a", "b"];
    assert Join(["b"], "-") == "b";
    assert Join(["a", "b"], "-") == "a-b";
    assert Join(["css", "a-b"], "-") == "css-a-b";
    assert Join(["css", "a", "b"], "-") == "css-a-b";
    var s := map[oldPath := Entry(1, Some(7))];
    assert Get(s, oldPath) == Some(Entry(1, Some(7)));
    assert Clear(s, oldPath).store == map[];
  }

  /** The corrected protocol never loses a consumer's entry: if the consumer's slot is live
      before the re-assignment, it still reads a value afterwards. */
  lemma FixedChangeKeepsEntry<T>(s: Store<Entry<T>>, c: Consumer, keyPath: seq<string>,
                                 built: T, truthy: T -> bool)
    requires c.cachePath == FullPathOf(c) && c.cachePath in s
    ensures Read(ChangeKeyPathFixed(s, c, keyPath, built, truthy).store,
                 ChangeKeyPathFixed(s, c, keyPath, built, truthy).consumer).Ok?
  {
  }

  /** Three identical consumers set up on an absent slot share the first one's value, built
      once; unmounting all three restores the store and hands that value to
      `onCacheRemove` once. */
  lemma ThreeConsumersShareOneValue<T>(s: Store<Entry<T>>, prefix: string, keyPath: seq<string>,
                                       b1: T, b2: T, b3: T, truthy: T -> bool)
    requires FullPath(prefix, keyPath) !in s && truthy(b1)
    ensures var p := FullPath(prefix, keyPath);
            var m1 := Mount(s, prefix, keyPath, false, b1, truthy);
            var m2 := Mount(m1.store, prefix, keyPath, false, b2, truthy);
            var m3 := Mount(m2.store, prefix, keyPath, false, b3, truthy);
            var u1 := Unmount(m3.store, m1.consumer);
            var u2 := Unmount(u1.store, m2.consumer);
            var u3 := Unmount(u2.store, m3.consumer);
            && Read(m3.store, m1.consumer) == Ok(Some(b1))
            && Read(m3.store, m2.consumer) == Ok(Some(b1))
            && Read(m3.store, m3.consumer) == Ok(Some(b1))
            && m3.store[p].times == 3
            && m1.effects + m2.effects + m3.effects == [CacheFn(p)]
            && Read(u2.store, m3.consumer) == Ok(Some(b1))
            && u3.store == s
            && u1.effects + u2.effects + u3.effects == [OnCacheRemove(p, Some(b1), false)]
  {
    var p := FullPath(prefix, keyPath);
    var m1 := Mount(s, prefix, keyPath, false, b1, truthy);
    var m2 := Mount(m1.store, prefix, keyPath, false, b2, truthy);
    var m3 := Mount(m2.store, prefix, keyPath, false, b3, truthy);
    assert m3.store == s[p := Entry(3, Some(b1))];
    var u1 := Unmount(m3.store, m1.consumer);
    var u2 := Unmount(u1.store, m2.consumer);
    assert u2.store == s[p := Entry(1, Some(b1))];
    var u3 := Unmount(u2.store, m3.consumer);
    assert u3.store == s[p := Entry(1, Some(b1))] - {p};
    assert s[p := Entry(1, Some(b1))] - {p} == s;
  }
}

=== FILE: global_cache.dfy ===
/** The reference-counted updaters of the global cache hook. Each consumer slot stores a pair
    `(times, cache)`; acquiring a slot ("flush") bumps `times` and builds the value only when
    none is usable, releasing it ("clear") drops `times` and deletes the slot when the count
    reaches exactly zero. Calls to `cacheFn` and `onCacheRemove` are returned as effects. */
module GlobalCache {
  import opened Options
  import opened CacheEntity

  /** A stored pair. `cache` is `None` for the `[times - 1, undefined]` pair that releasing an
      absent path writes. */
  datatype Entry<T> = Entry(times: int, cache: Option<T>)

  /** Observable calls made by an updater. */
  datatype Effect<T> =
    | CacheFn(path: Path)
    | OnCacheRemove(path: Path, cache: Option<T>, fromHMR: bool)

  /** What an updater hands back to the store: the next pair (`None` deletes) and its calls. */
  datatype Step<T> = Step(next: Option<Entry<T>>, effects: seq<Effect<T>>)

  /** The store after an update, with every call made along the way, in order. */
  datatype Outcome<T> = Outcome(store: Store<Entry<T>>, effects: seq<Effect<T>>)

  /** The count of a stored pair; an absent slot counts as zero. */
  function Times<T>(prev: Option<Entry<T>>): int {
    if prev.Some? then prev.value.times else 0
  }

  /** The value of a stored pair, if the slot holds one. */
  function Cached<T>(prev: Option<Entry<T>>): Option<T> {
    if prev.Some? then prev.value.cache else None
  }

  /** JavaScript truthiness of a possibly-undefined cached value. */
  predicate Usable<T>(c: Option<T>, truthy: T -> bool) {
    c.Some? && truthy(c.value)
  }

  /** The value already stored is kept: it is truthy and no hot reload forces a rebuild. */
  predicate Reused<T>(prev: Option<Entry<T>>, hmr: bool, truthy: T -> bool) {
    Usable(Cached(prev), truthy) && !hmr
  }

  /** The updater passed by `flush`. `built` is what `cacheFn()` returns if it is called. */
  function FlushUpdate<T>(path: Path, prev: Option<Entry<T>>, hmr: bool, built: T,
                          truthy: T -> bool): (r: Step<T>)
    // the slot is never deleted and its count goes up by exactly one
    ensures r.next.Some? && r.next.value.times == Times(prev) + 1
    // a usable value survives a non-HMR flush untouched, and nothing is called
    ensures Reused(prev, hmr, truthy) ==> r.next.value.cache == Cached(prev) && r.effects == []
    // otherwise `cacheFn` runs exactly once and its result is stored
    ensures !Reused(prev, hmr, truthy) ==> r.next.value.cache == Some(built)
    ensures !Reused(prev, hmr, truthy) ==> |r.effects| >= 1 && r.effects[|r.effects| - 1] == CacheFn(path)
    // the old value is handed to `onCacheRemove(old, true)` exactly when HMR discards it
    ensures Usable(Cached(prev), truthy) && hmr
            <==> r.effects == [OnCacheRemove(path, Cached(prev), true), CacheFn(path)]
    // with no usable value, the only call is the one to `cacheFn`
    ensures !Usable(Cached(prev), truthy) ==> r.effects == [CacheFn(path)]
  {
    var times := Times(prev);
    var cache := Cached(prev);
    var dropped := Usable(cache, truthy) && hmr;
    var tmpCache := if dropped then None else cache;
    var removal := if dropped then [OnCacheRemove(path, cache, true)] else [];
    if Usable(tmpCache, truthy) then
      Step(Some(Entry(times + 1, tmpCache)), removal)
    else
      Step(Some(Entry(times + 1, Some(built))), removal + [CacheFn(path)])
  }

  /** The updater passed by `clearCache`. */
  function ClearUpdate<T>(path: Path, prev: Option<Entry<T>>): (r: Step<T>)
    // the slot is deleted, and `onCacheRemove(value, false)` called once, exactly when the
    // count reaches zero
    ensures r.next.None? <==> Times(prev) == 1
    ensures r.next.None? <==> r.effects == [OnCacheRemove(path, Cached(prev), false)]
    ensures r.next.None? || r.effects == []
    // otherwise the count drops by one (below zero for an absent path) and the value stays
    ensures r.next.Some? ==> r.next.value == Entry(Times(prev) - 1, Cached(prev))
  {
    var times := Times(prev);
    var cache := Cached(prev);
    if times - 1 == 0 then Step(None, [OnCacheRemove(path, cache, false)])
    else Step(Some(Entry(times - 1, cache)), [])
  }

  function Apply<T>(s: Store<Entry<T>>, path: Path, st: Step<T>): Outcome<T> {
    Outcome(Update(s, path, st.next), st.effects)
  }

  /** Acquiring `path` in the store: its count goes up by one, it holds the reused or the
      freshly built value, no other slot changes, and the calls are those of the updater. */
  function Flush<T>(s: Store<Entry<T>>, path: Path, hmr: bool, built: T,
                    truthy: T -> bool): (r: Outcome<T>)
    ensures path in r.store && r.store[path].times == Times(Get(s, path)) + 1
    ensures r.store[path].cache
            == if Reused(Get(s, path), hmr, truthy) then Cached(Get(s, path)) else Some(built)
    ensures forall q :: q != path ==> Get(r.store, q) == Get(s, q)
    ensures r.effects == FlushUpdate(path, Get(s, path), hmr, built, truthy).effects
  {
    Apply(s, path, FlushUpdate(path, Get(s, path), hmr, built, truthy))
  }

  /** Releasing `path` in the store: the slot goes exactly when its count was one, no other
      slot changes, and the calls are those of the updater. */
  function Clear<T>(s: Store<Entry<T>>, path: Path): (r: Outcome<T>)
    ensures path !in r.store <==> Times(Get(s, path)) == 1
    ensures path in r.store ==> r.store[path] == Entry(Times(Get(s, path)) - 1, Cached(Get(s, path)))
    ensures forall q :: q != path ==> Get(r.store, q) == Get(s, q)
    ensures r.effects == ClearUpdate(path, Get(s, path)).effects
  {
    Apply(s, path, ClearUpdate(path, Get(s, path)))
  }

  /** Releasing right after acquiring restores the slot, whatever value the flush chose, as
      long as the slot was absent or its count was not zero (a zero count would be deleted). */
  lemma ClearInvertsFlush<T>(path: Path, prev: Option<Entry<T>>, hmr: bool, built: T,
                             truthy: T -> bool)
    requires prev.None? || prev.value.times != 0
    ensures var f := FlushUpdate(path, prev, hmr, built, truthy);
            var c := ClearUpdate(path, f.next);
            c.next == (if prev.None? then None else Some(Entry(prev.value.times, f.next.value.cache)))
    ensures var f := FlushUpdate(path, prev, hmr, built, truthy);
            Reused(prev, hmr, truthy) ==> ClearUpdate(path, f.next).next == prev
  {
  }

  /** A slot whose count is zero, as a stray release leaves it, is not restored by a release
      after an acquire: the acquire brings it to one and the release deletes it, handing the
      value to `onCacheRemove`. */
  lemma FlushThenClearAtZeroDeletes<T>(path: Path, v: Option<T>, hmr: bool, built: T,
                                       truthy: T -> bool)
    ensures var f := FlushUpdate(path, Some(Entry(0, v)), hmr, built, truthy);
            var c := ClearUpdate(path, f.next);
            c.next == None && c.effects == [OnCacheRemove(path, f.next.value.cache, false)]
  {
  }

  /** A host notification delivered to the store. */
  datatype Event<T> = FlushEvent(path: Path, hmr: bool, built: T) | ClearEvent(path: Path)

  function Deliver<T>(s: Store<Entry<T>>, e: Event<T>, truthy: T -> bool): Outcome<T> {
    match e
    case FlushEvent(p, hmr, built) => Flush(s, p, hmr, built, truthy)
    case ClearEvent(p) => Clear(s, p)
  }

  /** Delivers the events in order; each update is atomic. */
  function Run<T>(s: Store<Entry<T>>, events: seq<Event<T>>, truthy: T -> bool): Outcome<T>
    decreases |events|
  {
    if |events| == 0 then Outcome(s, [])
    else
      var first := Deliver(s, events[0], truthy);
      var rest := Run(first.store, events[1..], truthy);
      Outcome(rest.store, first.effects + rest.effects)
  }

  /** One non-HMR flush of `path` per value in `built`. */
  function Flushes<T>(path: Path, built: seq<T>): (r: seq<Event<T>>)
    ensures |r| == |built|
    ensures forall i :: 0 <= i < |r| ==> r[i] == FlushEvent(path, false, built[i])
  {
    if |built| == 0 then [] else [FlushEvent(path, false, built[0])] + Flushes(path, built[1..])
  }

  /** `n` releases of `path`. */
  function Clears<T>(path: Path, n: nat): (r: seq<Event<T>>)
    ensures |r| == n
    ensures forall i :: 0 <= i < |r| ==> r[i] == ClearEvent(path)
  {
    if n == 0 then [] else [ClearEvent(path)] + Clears(path, n - 1)
  }

  /** Further non-HMR flushes of a slot holding a usable value only add to its count: the
      value is shared and `cacheFn` is never called. */
  lemma {:induction false} FlushesShareValue<T>(s: Store<Entry<T>>, path: Path, built: seq<T>,
                                               truthy: T -> bool)
    requires path in s && Usable(s[path].cache, truthy)
    ensures Run(s, Flushes(path, built), truthy)
            == Outcome(s[path := Entry(s[path].times + |built|, s[path].cache)], [])
    decreases |built|
  {
    if |built| == 0 {
      assert s[path := Entry(s[path].times, s[path].cache)] == s;
    } else {
      var s1 := Flush(s, path, false, built[0], truthy).store;
      assert s1 == s[path := Entry(s[path].times + 1, s[path].cache)];
      FlushesShareValue(s1, path, built[1..], truthy);
      assert s1[path := Entry(s1[path].times + |built[1..]|, s1[path].cache)]
          == s[path := Entry(s[path].times + |built|, s[path].cache)];
    }
  }

  /** N consumers acquiring an absent slot share the first consumer's value, built once. */
  lemma NFlushesBuildOnce<T>(s: Store<Entry<T>>, path: Path, built: seq<T>, truthy: T -> bool)
    requires path !in s && |built| >= 1 && truthy(built[0])
    ensures Run(s, Flushes(path, built), truthy)
            == Outcome(s[path := Entry(|built|, Some(built[0]))], [CacheFn(path)])
  {
    var evs := Flushes(path, built);
    var s1 := s[path := Entry(1, Some(built[0]))];
    assert Deliver(s, evs[0], truthy) == Outcome(s1, [CacheFn(path)]);
    assert evs[1..] == Flushes(path, built[1..]);
    FlushesShareValue(s1, path, built[1..], truthy);
    assert s1[path := Entry(1 + |built[1..]|, Some(built[0]))]
        == s[path := Entry(|built|, Some(built[0]))];
  }

  /** Releasing a slot as many times as its count deletes it, calling `onCacheRemove` once,
      with the value it held. */
  lemma {:induction false} ReleaseAll<T>(s: Store<Entry<T>>, path: Path, n: nat, truthy: T -> bool)
    requires path in s && s[path].times == n && n >= 1
    ensures Run(s, Clears(path, n), truthy)
            == Outcome(s - {path}, [OnCacheRemove(path, s[path].cache, false)])
    decreases n
  {
    var evs: seq<Event<T>> := Clears(path, n);
    assert evs[1..] == Clears(path, n - 1);
    if n == 1 {
      assert Deliver(s, evs[0], truthy)
          == Outcome(s - {path}, [OnCacheRemove(path, s[path].cache, false)]);
    } else {
      var s1 := s[path := Entry(n - 1, s[path].cache)];
      assert Deliver(s, evs[0], truthy) == Outcome(s1, []);
      ReleaseAll(s1, path, n - 1, truthy);
      assert s1 - {path} == s - {path};
    }
  }

  /** N acquisitions of an absent slot followed by N releases leave the store as it was;
      `cacheFn` ran once and `onCacheRemove` ran once, with the shared value. */
  lemma AcquireReleaseBalanced<T>(s: Store<Entry<T>>, path: Path, built: seq<T>,
                                  truthy: T -> bool)
    requires path !in s && |built| >= 1 && truthy(built[0])
    ensures var acquired := Run(s, Flushes(path, built), truthy);
            var released := Run(acquired.store, Clears(path, |built|), truthy);
            && released.store == s
            && acquired.effects + released.effects
               == [CacheFn(path), OnCacheRemove(path, Some(built[0]), false)]
  {
    var s1 := s[path := Entry(|built|, Some(built[0]))];
    NFlushesBuildOnce(s, path, built, truthy);
    ReleaseAll(s1, path, |built|, truthy);
    assert s1 - {path} == s;
  }

  /** A release delivered for an absent slot is not a no-op: it leaves a count of -1, so the
      slot built by the next flush is never deleted by the matching release. */
  lemma StrayClearLeaksSlot<T>(s: Store<Entry<T>>, path: Path, built: T, truthy: T -> bool)
    requires path !in s
    ensures var r := Run(s, [ClearEvent(path), FlushEvent(path, false, built), ClearEvent(path)], truthy);
            r.store == s[path := Entry(-1, Some(built))] && r.effects == [CacheFn(path)]
  {
    var evs: seq<Event<T>> := [ClearEvent(path), FlushEvent(path, false, built), ClearEvent(path)];
    var s1 := s[path := Entry(-1, None)];
    var s2 := s[path := Entry(0, Some(built))];
    var s3 := s[path := Entry(-1, Some(built))];
    assert Deliver(s, evs[0], truthy) == Outcome(s1, []);
    assert Deliver(s1, evs[1], truthy) == Outcome(s2, [CacheFn(path)]);
    assert Deliver(s2, evs[2], truthy) == Outcome(s3, []);
    assert evs[1..][1..] == [evs[2]];
    assert evs[1..][1..][1..] == [];
    assert Run(s2, [evs[2]], truthy) == Outcome(s3, []);
    assert Run(s1, evs[1..], truthy) == Outcome(s3, [CacheFn(path)]);
    assert Run(s, evs, truthy) == Outcome(s3, [] + [CacheFn(path)]);
  }
}

=== FILE: options.dfy ===
/** An optional value, and the result of an operation that may throw: `Option` stands for a
    JavaScript value that may be `undefined`, `Result` for an operation that may throw. */
module Options {

  datatype Option<+T> = None | Some(value: T)

  datatype Result<+R, +E> = Ok(value: R) | Err(error: E)
}

=== FILE: style_context.dfy ===
/** The style-sheet adoption pass that runs when a cache is created. Marked `<style>` nodes found
    in the body are tagged with this runtime's instance id (unless already tagged) and moved,
    in order, in front of the head's original first child. A document-order scan then keeps the
    first node per content hash and removes later duplicates only when this instance owns them.
    The document is its head and body, each flattened in document order. */
module StyleContext {
  import opened Options
  import opened CacheEntity

  /** A node of the document. A `Style` is a `<style>` element: `mark` is its `data-css-hash`
      attribute and `instance` its instance-marker property. Every other node is `Other`. */
  datatype Node = Style(mark: Option<string>, instance: Option<string>) | Other

  /** Matched by the `style[data-css-hash]` selector. */
  predicate Marked(n: Node) {
    n.Style? && n.mark.Some?
  }

  /** The instance marker is truthy: present and not the empty string. */
  predicate Tagged(n: Node) {
    n.Style? && n.instance.Some? && n.instance.value != ""
  }

  /** Tags a style with this runtime's instance id unless it already carries a non-empty tag. */
  function Tag(n: Node, id: string): (r: Node)
    requires n.Style?
    ensures r.Style? && r.mark == n.mark
    // an existing tag is kept; the current id is written only where there was none
    ensures Tagged(n) ==> r.instance == n.instance
    ensures !Tagged(n) ==> r.instance == Some(id)
  {
    Style(n.mark, if Tagged(n) then n.instance else Some(id))
  }

  /** The nodes of `nodes` that are not marked styles, in order. */
  function Unmarked(nodes: seq<Node>): (r: seq<Node>)
    ensures forall k :: 0 <= k < |r| ==> !Marked(r[k])
    ensures |r| <= |nodes|
    decreases |nodes|
  {
    if |nodes| == 0 then []
    else
      var last := nodes[|nodes| - 1];
      Unmarked(nodes[..|nodes| - 1]) + (if Marked(last) then [] else [last])
  }

  /** `n` is some marked style of `body` after tagging. */
  predicate TaggedFrom(n: Node, body: seq<Node>, id: string) {
    exists j :: 0 <= j < |body| && Marked(body[j]) && n == Tag(body[j], id)
  }

  /** The marked styles of `body`, in order, each tagged. Together with the unmarked nodes they
      account for the whole body. */
  function Moved(body: seq<Node>, id: string): (r: seq<Node>)
    ensures forall k :: 0 <= k < |r| ==> Marked(r[k])
    ensures |r| + |Unmarked(body)| == |body|
    // every moved node is a marked body style with its tag settled
    ensures forall k :: 0 <= k < |r| ==> TaggedFrom(r[k], body, id)
    decreases |body|
  {
    if |body| == 0 then []
    else
      var init := body[..|body| - 1];
      var last := body[|body| - 1];
      var front := Moved(init, id);
      assert forall j :: 0 <= j < |init| ==> init[j] == body[j];
      assert forall n :: TaggedFrom(n, init, id) ==> TaggedFrom(n, body, id);
      assert Marked(last) ==> TaggedFrom(Tag(last, id), body, id);
      front + (if Marked(last) then [Tag(last, id)] else [])
  }

  /** `parent.insertBefore(n, ref)`, with the reference child given by its index; a missing
      reference appends. */
  function InsertBefore(children: seq<Node>, n: Node, ref: Option<nat>): (r: seq<Node>)
    requires ref.None? || ref.value < |children|
    ensures |r| == |children| + 1
  {
    match ref
    case None => children + [n]
    case Some(k) => children[..k] + [n] + children[k..]
  }

  /** The body-to-head move, node by node: every marked body style is tagged and inserted
      before the head's original first child, which ends up after all of them in their original
      order; the body keeps its other nodes in order. */
  method AdoptBodyStyles(head: seq<Node>, body: seq<Node>, id: string)
    returns (newHead: seq<Node>, newBody: seq<Node>)
    ensures newHead == Moved(body, id) + head
    ensures newBody == Unmarked(body)
    ensures newHead[|Moved(body, id)|..] == head
  {
    // the index of the first child captured before any move: every insertion lands before it
    var firstChild: Option<nat> := if |head| > 0 then Some(0) else None;
    newHead := head;
    newBody := [];
    var i := 0;
    while i < |body|
      invariant 0 <= i <= |body|
      invariant newHead == Moved(body[..i], id) + head
      invariant newBody == Unmarked(body[..i])
      invariant firstChild.Some? <==> |head| > 0
      invariant firstChild.Some? ==> firstChild.value == |Moved(body[..i], id)|
    {
      MovedSnoc(body, i, id);
      var n := body[i];
      if Marked(n) {
        InsertAfterMoved(Moved(body[..i], id), head, Tag(n, id), firstChild);
        newHead := InsertBefore(newHead, Tag(n, id), firstChild);
        if firstChild.Some? {
          firstChild := Some(firstChild.value + 1);
        }
      } else {
        newBody := newBody + [n];
      }
      i := i + 1;
    }
    assert body[..|body|] == body;
  }

  lemma MovedSnoc(body: seq<Node>, i: nat, id: string)
    requires i < |body|
    ensures Moved(body[..i + 1], id)
            == Moved(body[..i], id) + (if Marked(body[i]) then [Tag(body[i], id)] else [])
    ensures Unmarked(body[..i + 1]) == Unmarked(body[..i]) + (if Marked(body[i]) then [] else [body[i]])
  {
    assert body[..i + 1][..i] == body[..i];
  }

  /** Inserting before the old first child, which sits right after the styles moved so far. */
  lemma InsertAfterMoved(moved: seq<Node>, head: seq<Node>, n: Node, ref: Option<nat>)
    requires ref.Some? <==> |head| > 0
    requires ref.Some? ==> ref.value == |moved|
    ensures InsertBefore(moved + head, n, ref) == moved + [n] + head
  {
    if ref.Some? {
      assert (moved + head)[..|moved|] == moved;
      assert (moved + head)[|moved|..] == head;
    } else {
      assert head == [];
    }
  }

  /** The content hash a node contributes to the scan, if any. */
  function MarkOf(n: Node): set<string> {
    if Marked(n) then {n.mark.value} else {}
  }

  /** Every content hash carried by a marked style of `nodes`. */
  function MarksIn(nodes: seq<Node>): set<string>
    decreases |nodes|
  {
    if |nodes| == 0 then {} else MarkOf(nodes[0]) + MarksIn(nodes[1..])
  }

  lemma {:induction false} MarksInConcat(a: seq<Node>, b: seq<Node>)
    ensures MarksIn(a + b) == MarksIn(a) + MarksIn(b)
    decreases |a|
  {
    if |a| > 0 {
      assert (a + b)[1..] == a[1..] + b;
      MarksInConcat(a[1..], b);
    } else {
      assert a + b == b;
    }
  }

  /** Moving loses no content hash: the moved styles carry exactly the hashes of the body. */
  lemma {:induction false} MovedKeepsMarks(body: seq<Node>, id: string)
    ensures MarksIn(Moved(body, id)) == MarksIn(body)
    decreases |body|
  {
    if |body| > 0 {
      var init := body[..|body| - 1];
      var last := body[|body| - 1];
      assert body == init + [last];
      MovedKeepsMarks(init, id);
      MarksInConcat(init, [last]);
      MarksInConcat(Moved(init, id), if Marked(last) then [Tag(last, id)] else []);
    }
  }

  /** The dedup scan's state: the nodes kept so far and the `styleHash` record. */
  datatype ScanState = ScanState(kept: seq<Node>, seen: set<string>)

  /** The dedup scan over `nodes` in document order, starting from the hashes in `seen`: a
      marked style whose hash was already seen is removed if this instance owns it and kept
      otherwise; the first style with a hash records it. */
  function Scan(nodes: seq<Node>, seen: set<string>, id: string): (r: ScanState)
    ensures r.seen == seen + MarksIn(nodes)
    ensures |r.kept| <= |nodes|
    decreases |nodes|
  {
    if |nodes| == 0 then ScanState([], seen)
    else
      var n := nodes[0];
      if Marked(n) && n.mark.value !in seen then
        var rest := Scan(nodes[1..], seen + {n.mark.value}, id);
        ScanState([n] + rest.kept, rest.seen)
      else
        var rest := Scan(nodes[1..], seen, id);
        if Marked(n) && n.instance == Some(id) then rest
        else ScanState([n] + rest.kept, rest.seen)
  }

  /** The closed form of removal: node `i` goes exactly when it is a marked style owned by this
      instance whose hash was seen before it, in `seen` or at an earlier node. */
  predicate OwnedDuplicate(nodes: seq<Node>, i: nat, seen: set<string>, id: string)
    requires i < |nodes|
  {
    Marked(nodes[i]) && nodes[i].instance == Some(id)
    && nodes[i].mark.value in seen + MarksIn(nodes[..i])
  }

  function KeepMask(nodes: seq<Node>, seen: set<string>, id: string): (r: seq<bool>)
    ensures |r| == |nodes|
  {
    seq(|nodes|, i requires 0 <= i < |nodes| => !OwnedDuplicate(nodes, i, seen, id))
  }

  /** The nodes whose mask bit is set, in order. */
  function Select(nodes: seq<Node>, mask: seq<bool>): (r: seq<Node>)
    requires |mask| == |nodes|
    ensures |r| <= |nodes|
    decreases |nodes|
  {
    if |nodes| == 0 then []
    else (if mask[0] then [nodes[0]] else []) + Select(nodes[1..], mask[1..])
  }

  lemma MarksInPrefix(nodes: seq<Node>, i: nat)
    requires 1 <= i <= |nodes|
    ensures MarksIn(nodes[..i]) == MarkOf(nodes[0]) + MarksIn(nodes[1..][..i - 1])
  {
    assert nodes[..i][1..] == nodes[1..][..i - 1];
  }

  /** The scan keeps exactly the nodes that are not owned duplicates, in document order: the
      first style per hash survives, and so does every unmarked node and every duplicate owned
      by another instance. */
  lemma {:induction false} ScanKeepsExactlyMask(nodes: seq<Node>, seen: set<string>, id: string)
    ensures Scan(nodes, seen, id).kept == Select(nodes, KeepMask(nodes, seen, id))
    decreases |nodes|
  {
    if |nodes| > 0 {
      var n := nodes[0];
      var seen' := seen + MarkOf(n);
      var mask := KeepMask(nodes, seen, id);
      var tail := KeepMask(nodes[1..], seen', id);
      forall k | 0 <= k < |tail| ensures mask[1..][k] == tail[k] {
        MarksInPrefix(nodes, k + 1);
        assert nodes[k + 1] == nodes[1..][k];
      }
      assert mask[1..] == tail;
      assert nodes[..0] == [];
      ScanKeepsExactlyMask(nodes[1..], seen', id);
      if Marked(n) && n.mark.value in seen {
        assert seen' == seen;
      } else if !Marked(n) {
        assert seen' == seen;
      }
    }
  }

  /** Running the scan on its own output, from the same hashes, changes nothing. */
  lemma {:induction false} ScanIdempotent(nodes: seq<Node>, seen: set<string>, id: string)
    ensures Scan(Scan(nodes, seen, id).kept, seen, id) == Scan(nodes, seen, id)
    decreases |nodes|
  {
    if |nodes| > 0 {
      var n := nodes[0];
      var r := Scan(nodes, seen, id);
      if Marked(n) && n.mark.value !in seen {
        var rest := Scan(nodes[1..], seen + {n.mark.value}, id);
        ScanIdempotent(nodes[1..], seen + {n.mark.value}, id);
        assert r.kept == [n] + rest.kept;
        assert ([n] + rest.kept)[1..] == rest.kept;
      } else {
        var rest := Scan(nodes[1..], seen, id);
        ScanIdempotent(nodes[1..], seen, id);
        if !(Marked(n) && n.instance == Some(id)) {
          assert r.kept == [n] + rest.kept;
          assert ([n] + rest.kept)[1..] == rest.kept;
        }
      }
    }
  }

  /** A scan over nodes none of which is a marked style keeps all of them. */
  lemma {:induction false} ScanIgnoresUnmarked(nodes: seq<Node>, seen: set<string>, id: string)
    requires forall k :: 0 <= k < |nodes| ==> !Marked(nodes[k])
    ensures Scan(nodes, seen, id) == ScanState(nodes, seen)
    decreases |nodes|
  {
    if |nodes| > 0 {
      ScanIgnoresUnmarked(nodes[1..], seen, id);
      assert [nodes[0]] + nodes[1..] == nodes;
    }
  }

  lemma {:induction false} UnmarkedConcat(a: seq<Node>, b: seq<Node>)
    ensures Unmarked(a + b) == Unmarked(a) + Unmarked(b)
    decreases |b|
  {
    if |b| == 0 {
      assert a + b == a;
    } else {
      assert (a + b)[..|a + b| - 1] == a + b[..|b| - 1];
      UnmarkedConcat(a, b[..|b| - 1]);
    }
  }

  lemma {:induction false} UnmarkedOfMarkedOnly(nodes: seq<Node>)
    requires forall k :: 0 <= k < |nodes| ==> Marked(nodes[k])
    ensures Unmarked(nodes) == []
    decreases |nodes|
  {
    if |nodes| > 0 {
      UnmarkedOfMarkedOnly(nodes[..|nodes| - 1]);
    }
  }

  lemma {:induction false} UnmarkedOfUnmarkedOnly(nodes: seq<Node>, id: string)
    requires forall k :: 0 <= k < |nodes| ==> !Marked(nodes[k])
    ensures Unmarked(nodes) == nodes && Moved(nodes, id) == []
    decreases |nodes|
  {
    if |nodes| > 0 {
      UnmarkedOfUnmarkedOnly(nodes[..|nodes| - 1], id);
      assert nodes[..|nodes| - 1] + [nodes[|nodes| - 1]] == nodes;
    }
  }

  /** The scan never removes a node that is not a marked style. */
  lemma {:induction false} ScanKeepsUnmarked(nodes: seq<Node>, seen: set<string>, id: string)
    ensures Unmarked(Scan(nodes, seen, id).kept) == Unmarked(nodes)
    decreases |nodes|
  {
    if |nodes| > 0 {
      var n := nodes[0];
      assert nodes == [n] + nodes[1..];
      UnmarkedConcat([n], nodes[1..]);
      assert [n][..0] == [];
      if Marked(n) && n.mark.value !in seen {
        var rest := Scan(nodes[1..], seen + {n.mark.value}, id);
        ScanKeepsUnmarked(nodes[1..], seen + {n.mark.value}, id);
        UnmarkedConcat([n], rest.kept);
      } else {
        var rest := Scan(nodes[1..], seen, id);
        ScanKeepsUnmarked(nodes[1..], seen, id);
        UnmarkedConcat([n], rest.kept);
      }
    }
  }

  /** The head and body after the adoption pass. */
  datatype Page = Page(head: seq<Node>, body: seq<Node>)

  /** Move and tag the marked body styles, then dedup the whole document in order. What the
      pass leaves, in closed form: the head is the moved styles followed by the old head, minus
      the owned duplicates; the body is its unmarked nodes, untouched. */
  function AdoptAndDedup(head: seq<Node>, body: seq<Node>, id: string): (r: Page)
    ensures var moved := Moved(body, id) + head;
            r.head == Select(moved, KeepMask(moved, {}, id))
    ensures r.body == Unmarked(body)
  {
    var moved := Moved(body, id) + head;
    var h := Scan(moved, {}, id);
    ScanKeepsExactlyMask(moved, {}, id);
    ScanIgnoresUnmarked(Unmarked(body), h.seen, id);
    Page(h.kept, Scan(Unmarked(body), h.seen, id).kept)
  }

  /** Nodes that are not marked styles are never moved or removed: the head keeps its own in
      order and the body keeps all of its own. */
  lemma AdoptAndDedupKeepsUnmarked(head: seq<Node>, body: seq<Node>, id: string)
    ensures var p := AdoptAndDedup(head, body, id);
            Unmarked(p.head) == Unmarked(head) && p.body == Unmarked(body)
  {
    var moved := Moved(body, id);
    ScanKeepsUnmarked(moved + head, {}, id);
    UnmarkedConcat(moved, head);
    UnmarkedOfMarkedOnly(moved);
  }

  /** Running the pass again on its own result changes nothing. */
  lemma AdoptAndDedupIdempotent(head: seq<Node>, body: seq<Node>, id: string)
    ensures var p := AdoptAndDedup(head, body, id);
            AdoptAndDedup(p.head, p.body, id) == p
  {
    var p := AdoptAndDedup(head, body, id);
    UnmarkedOfUnmarkedOnly(p.body, id);
    assert Moved(p.body, id) + p.head == p.head;
    ScanIdempotent(Moved(body, id) + head, {}, id);
    var h := Scan(p.head, {}, id);
    ScanIgnoresUnmarked(p.body, h.seen, id);
  }

  /** The document as the runtime finds it; the pass needs a document with a head and a body. */
  datatype Dom = NoDocument | Document(head: Option<seq<Node>>, body: Option<seq<Node>>)

  predicate Ready(dom: Dom) {
    dom.Document? && dom.head.Some? && dom.body.Some?
  }

  datatype Created<V> = Created(dom: Dom, cache: Store<V>)

  /** `createCache()`: adopt and dedup when there is a document with a head and a body, and in
      every case return a new, empty cache. */
  function CreateCache<V>(dom: Dom, id: string): (r: Created<V>)
    ensures r.cache == Empty()
    ensures !Ready(dom) ==> r.dom == dom
    ensures Ready(dom) <==> Ready(r.dom)
    // with a head and a body, the marked body styles end up tagged in the head, owned
    // duplicates are gone, and the body keeps only its other nodes
    ensures Ready(dom) ==>
              var moved := Moved(dom.body.value, id) + dom.head.value;
              r.dom.head.value == Select(moved, KeepMask(moved, {}, id))
              && r.dom.body.value == Unmarked(dom.body.value)
  {
    if Ready(dom) then
      var p := AdoptAndDedup(dom.head.value, dom.body.value, id);
      Created(Document(Some(p.head), Some(p.body)), Empty())
    else
      Created(dom, Empty())
  }

  /** Creating a second cache with the same instance id leaves the document as the first left it. */
  lemma CreateCacheIdempotent<V>(dom: Dom, id: string)
    ensures var once: Created<V> := CreateCache(dom, id);
            var twice: Created<V> := CreateCache(once.dom, id);
            twice.dom == once.dom
  {
    if Ready(dom) {
      AdoptAndDedupIdempotent(dom.head.value, dom.body.value, id);
    }
  }
}
